=== FILE: README.md ===
# verifysfv in Dafny

A model of the core of `verifysfv`, a Go library and command that checks
files against an SFV (Simple File Verification) manifest. An SFV manifest
is a text file whose record lines read `<filename> <crc32 in hex>`; blank
lines and lines starting with `;` are ignored. The model covers:

- the manifest parser (`parseChecksum`, `parseChecksums`, `Read`) and the
  directory search (`Find`), including Go's `strings.TrimSpace`,
  `strconv.ParseUint(s, 16, 32)` and `filepath.Ext` as the parser uses them;
- the per-record check (`Checksum.Verify`) as a loop that feeds fixed-size
  chunks of the file to an abstract CRC-32 accumulator, with an
  all-at-once specification it is proved to meet;
- the manifest-level folds `SFV.Verify` and `SFV.IsExist` over an abstract
  per-record check;
- the `verify` command: polynomial names, the per-worker buffer size with
  64-bit wrap-around and truncating division, the worker's classification
  of each result, the exit-code fold, and the order of fatal exits, panics
  and the final status. The worker pool is a map over the records followed
  by a fold that is proved not to depend on arrival order.

Modules, one per file: `Base` (bytes, 32-bit words, `Option`, `Result`,
first-index search), `Errors`, `Text`, `Hex`, `Crc`, `Manifest`
(`sfv/sfv.go` parsing and search), `Verification` (`sfv/sfv.go` checking)
and `Cli` (`cmd/verify/verify.go`).

The outside world is passed in as values: the manifest as
`Scan(lines, err)` (the scanner's lines and its final error), the file
system as a function from path to `File` (`Missing`, `Unopenable`, or
`Readable(data, fault)` where `fault` names the read call that fails), the
directory listing as a `Result` of names (in the order given, which for
`ioutil.ReadDir` is sorted by name, so "first" means first in name order), `path.Join`/`path.Dir` as a
`Paths` pair of functions, and the CRC table step as a `CrcStep` function
of polynomial, running checksum and byte.

Behaviour of the code worth knowing:

- `Read` of a manifest with no records succeeds with zero records; only
  `SFV.Verify` reports "no checksums" (`Verification.VerifyAll`), and the
  `verify` command exits 0 on such a manifest (`Cli.Pool` with no records).
- A file name cannot contain a space: the line is split at its first
  space, so the rest of the name ends up in the checksum token and the
  line fails (`Manifest.SpaceAfterSplitFails`).
- A checksum token may have more than 8 digits when the extra ones are
  leading zeros; `ParseUint` only bounds the value.
- White space is Go's `unicode.IsSpace`, not only ASCII: a line that
  separates name and checksum with a tab has no space and is malformed.
- The command treats per-record errors and an empty manifest alike as
  non-fatal. A missing operand, a bad polynomial name, a worker count of 0
  (a division-by-zero panic) or an unreadable manifest ends the run before
  any record is checked; a buffer over 2^48 bytes crashes it during the
  checks.
- More workers than bytes of budget (`-mem 1 -j 2048`) gives each worker a
  buffer of size 0, so no file is read: every computed checksum is 0, a
  record whose checksum is 00000000 passes whatever its file holds, and
  every other record whose file opens is reported as corrupt
  (`Verification.ZeroBufferChecksNothing`).
- A negative budget is not rejected: `-mem -1 -j 1` wraps to a buffer of
  2^64 - 1024 bytes (`Cli.NegativeBudgetHugeBuffer`), so the first worker
  that opens a file panics allocating it.

## Model

| member | source | states |
|---|---|---|
| Text.IsSpace | sfv/sfv.go:128 | on ASCII, white space is exactly tab, line feed, vertical tab, form feed, carriage return and space |
| Text.TrimSpace | sfv/sfv.go:128 | the result is the input with its leading and trailing white space removed: a slice `s[i..j]` with only white space before `i` and after `j`, starting and ending with a non-space character, and empty exactly when the line is all white space |
| Text.TrimSpaceIdempotent | sfv/sfv.go:128 | trimming a trimmed line changes nothing |
| Text.TrimSpaceKeeps | sfv/sfv.go:110 | a string with no white space at either end is its own trim |
| Text.TrimSpaceDrawsFrom | sfv/sfv.go:110 | every character of the trimmed text occurs in the input, so a trimmed name before the first space has no space |
| Text.Ext | sfv/sfv.go:172 | the extension is a suffix of the name; when not empty it starts with the last dot of the name and holds no other dot and no '/'; it is empty exactly when every dot of the name has a '/' after it (or there is no dot) |
| Text.SfvSuffixExt | sfv/sfv.go:172 | a name ending in ".sfv" has the extension ".sfv" |
| Text.ExtIsSfv | sfv/sfv.go:172 | the extension is ".sfv" exactly when the name ends in ".sfv" (case-sensitive) |
| Hex.Accumulate | sfv/sfv.go:112-115 | the left-to-right digit loop succeeds exactly on an all-hex string of value at most 0xFFFFFFFF, yields its positional value, and otherwise fails with a range error if some digit prefix overflows and a syntax error if not |
| Hex.ParseUint32Hex | sfv/sfv.go:112-115 | as `Accumulate`, and the empty token is a syntax error |
| Hex.HexValuePrefixMonotone | sfv/sfv.go:112 | extending a digit string never lowers its value, so once a prefix overflows the whole token does |
| Hex.FormatHex | cmd/verify/verify.go:59 | the `%x` rendering of a value (as in the corruption message), the inverse of the checksum parser: a non-empty string of lower-case hex digits with no leading zero whose positional value is the value |
| Hex.FormatHexRoundTrip | cmd/verify/verify.go:59 | parsing the `%x` rendering of any 32-bit value with the parser of sfv/sfv.go:112 gives the value back |
| Crc.Update | sfv/sfv.go:63 | `Write` of no bytes leaves the running checksum unchanged |
| Crc.UpdateLast | sfv/sfv.go:63 | the bytes are folded in order: the checksum of a byte string is one step past that of the string without its last byte |
| Crc.CrcOf | sfv/sfv.go:52-65 | a fresh accumulator that is written nothing sums to 0 |
| Crc.UpdateAppend | sfv/sfv.go:63 | writing two byte strings one after the other leaves the accumulator where writing their concatenation does |
| Crc.ChunkedEqualsWhole | sfv/sfv.go:55-65 | for every positive chunk size, feeding the data chunk by chunk gives the checksum of the whole data |
| Manifest.SplitAtSpace | sfv/sfv.go:106-109 | there is no split exactly when the line has no space; otherwise the line is head, space, rest, with no space in the head |
| Manifest.ParseChecksum | sfv/sfv.go:105-122 | a line without a space is a malformed-line error and nothing else is; any other failure is a number error; a record's path is the join of the directory and its space-free file name |
| Manifest.SplitsAtFirstSpace | sfv/sfv.go:106-121 | for a line split at its first space, the result is the record (trimmed head, join of directory and name, parsed value) exactly when the trimmed rest parses, and that parse error otherwise |
| Manifest.SpaceAfterSplitFails | sfv/sfv.go:106-115 | a line whose trimmed remainder still contains a space (a file name with a space) fails |
| Manifest.SkippedLine | sfv/sfv.go:128-131 | a line is passed over exactly when it is all white space or its first character other than white space is ';' |
| Manifest.ParseLines | sfv/sfv.go:127-137 | a successful parse has at most one record per line, each with the path of the directory joined to its name |
| Manifest.Kept | sfv/sfv.go:128-131 | the trimmed lines that are not blank or comments, at most one per line |
| Manifest.ParseLinesIsParseKept | sfv/sfv.go:128-131 | blank and comment lines take no part: the parse of the lines is the parse of the kept lines |
| Manifest.ParseKeptSucceeds | sfv/sfv.go:132-136 | parsing kept lines succeeds exactly when each of them parses |
| Manifest.ParseKeptRecords | sfv/sfv.go:132-136 | a successful parse holds one record per kept line, in order, each the parse of its line |
| Manifest.ParseKeptFirstError | sfv/sfv.go:132-135 | a failed parse carries the error of a kept line all of whose predecessors parsed |
| Manifest.ParseLinesSucceeds | sfv/sfv.go:127-137 | the line loop succeeds exactly when every kept line parses |
| Manifest.ParseLinesRecords | sfv/sfv.go:127-137 | a successful line loop yields exactly one record per kept line, in file order |
| Manifest.ParseLinesFirstError | sfv/sfv.go:132-135 | a failed line loop returns the error of the first kept line that fails and no records |
| Manifest.ParseLinesMeaning | sfv/sfv.go:124-137 | the three facts above together: success iff every kept line parses, then records one for one in order, otherwise the first failing line's error |
| Manifest.ParseChecksums | sfv/sfv.go:124-142 | a failing line's error comes first; if every line parses, a scanner error is returned as the error; with no scanner error the result is the line loop's records; a success has at most one record per line, each under the manifest's directory |
| Manifest.OnlyCommentsParseEmpty | sfv/sfv.go:124-141 | a manifest of blank and comment lines parses to zero records |
| Manifest.ParseLinesCons | sfv/sfv.go:127-136 | a record line at the front is parsed ahead of the rest of the file |
| Manifest.ParseFormattedLine | sfv/sfv.go:105-121 | the line written as name, space, `%x` of a value parses back to that record |
| Manifest.ParseFormattedStep | sfv/sfv.go:127-136 | if the rest of a written manifest parses back to its records, so does the manifest with one more record line in front |
| Manifest.ParseFormattedLines | sfv/sfv.go:127-137 | a file of such lines parses back to the same records, in order |
| Manifest.ParseFormattedManifest | sfv/sfv.go:124-141 | writing records as a manifest and parsing it gives them back |
| Manifest.Read | sfv/sfv.go:146-162 | an open error is returned as is; otherwise the parse of the opened manifest under `path.Dir` of its path decides: its error is returned, or its records together with the manifest path |
| Manifest.ReadMeaning | sfv/sfv.go:124-162 | with no scanner error, reading succeeds exactly when every kept line parses; a success holds one record per kept line, in order, each that line's parse, under the manifest path; a failure without scanner error is the error of a kept line all of whose predecessors parsed; a scanner error after lines that all parse is the result |
| Manifest.Find | sfv/sfv.go:166-177 | a listing error is returned as is; with no name ending in ".sfv" the result is the "no sfv found" error for the directory |
| Manifest.FindPicksFirst | sfv/sfv.go:171-175 | the result is the `Read` of the first listed name ending in ".sfv", whatever comes after it |
| Verification.Outcome | sfv/sfv.go:45-68 | an open or read error gives no match, a zero checksum and that error itself (the file's open error, or the error of the failing read); there is no error exactly when the file opens and the failing read is never reached; otherwise the result is a match exactly when the checksum of the content (of nothing, so 0, when the buffer has size 0) equals the record's |
| Verification.ZeroBufferChecksNothing | sfv/sfv.go:53-67 | with a buffer of size 0 no byte is read: any readable file checks without error, the computed checksum is 0, and the record passes exactly when its checksum is 0 |
| Verification.Verify | sfv/sfv.go:45-68 | the chunked read loop returns exactly `Outcome`: the bytes hashed so far are always the prefix consumed, a read error is reported only if its call is reached, and a zero-length buffer hashes nothing |
| Verification.VerifyFrom | sfv/sfv.go:83-92 | the loop's verdict is fixed by the first record that does not match: yes if there is none, otherwise no with that record's error |
| Verification.VerifyAll | sfv/sfv.go:79-93 | no records is the "no checksums" error; yes exactly when every record matches, and then no error; otherwise the error or mismatch of a record all of whose predecessors matched |
| Verification.LaterRecordsIgnored | sfv/sfv.go:83-91 | two checks that agree up to the first failing record give the same verdict |
| Verification.Stat | sfv/sfv.go:72-75 | a missing file does not exist; a file that cannot be opened and a readable one both exist |
| Verification.MissingFailsCheck | sfv/sfv.go:45-75 | a record whose file does not exist fails its check with an error, a record checked without error names an existing file, and an existing file that cannot be opened still fails its check |
| Verification.AllExist | sfv/sfv.go:96-103 | true exactly when every record's file exists, so true for no records |
| Cli.ParsePoly | cmd/verify/verify.go:93-105 | exactly "crc32c", "ieee" and "koop" are accepted, naming Castagnoli, IEEE and Koopman; any other name is the unsupported-polynomial error |
| Cli.KoopmanAdvertisedButRejected | cmd/verify/verify.go:17 | the help text offers "koopman", and the parser rejects it |
| Cli.ParsePolyAsAdvertised | cmd/verify/verify.go:17 | every advertised name is accepted, "koopman" names Koopman, and on every other name it agrees with `ParsePoly` |
| Cli.WrapInt64 | cmd/verify/verify.go:36 | the 64-bit two's-complement result is in range, congruent to the mathematical value, and equal to it when it fits |
| Cli.Quo | cmd/verify/verify.go:36 | Go's quotient: its magnitude is the quotient of the magnitudes and its sign is the product of the signs |
| Cli.EvenSplit | cmd/verify/verify.go:36 | for a budget that fits and a positive divisor, wrapping and the conversion to `uint64` leave the even share, rounded down |
| Cli.NegativeShare | cmd/verify/verify.go:36 | for a negative budget and positive workers, the quotient rounded toward zero and read as a `uint64` is 2^64 less the share of the budget's magnitude, or 0 when that share is 0 |
| Cli.BufSize | cmd/verify/verify.go:36 | a worker count of 0 is exactly the division-by-zero panic; the result fits in 64 bits; for positive workers it is the share of the budget after 64-bit wrap-around, read as a `uint64`: the even share rounded down when the wrapped budget is not negative (so buffer times workers does not exceed a budget that fits and one more byte each would), and 2^64 less the share of its magnitude, or 0, when it is negative |
| Cli.NegativeBudgetHugeBuffer | cmd/verify/verify.go:36 | `-mem -1 -j 1` gives a buffer of 2^64 - 1024 bytes, beyond the 2^48 allocation limit |
| Cli.BufSizeZeroWhenOversubscribed | cmd/verify/verify.go:36 | more workers than bytes gives every worker a buffer of size 0 |
| Cli.Classify | cmd/verify/verify.go:58-64 | nothing exactly on a match; the per-record verifier's error when there is one; a corruption error with expected checksum, computed checksum and file name on a mismatch |
| Cli.ClassifyOutcome | cmd/verify/verify.go:55-64 | against the file itself: an unopenable or missing file reports its open error, never a mismatch; a record passes exactly when its file was read in full and its checksum (of nothing when the buffer has size 0) is the recorded one; a file read in full that fails is a corruption error carrying that checksum |
| Cli.Results | cmd/verify/verify.go:51-74 | one result per record, that record's classification (its open or read error, or the corruption error on a mismatch), so empty exactly for the records that match |
| Cli.Drain | cmd/verify/verify.go:82-88 | the code is 1 exactly when it started at 1 or some result is an error |
| Cli.ExitCode | cmd/verify/verify.go:82-90 | the exit code is 0 or 1, and 0 exactly when every result is empty |
| Cli.Printed | cmd/verify/verify.go:83-88 | at most one line per result, and none exactly when every result is empty |
| Cli.PrintedCount | cmd/verify/verify.go:83-88 | each error is printed as many times as it arrives |
| Cli.ArrivalOrderIrrelevant | cmd/verify/verify.go:76-90 | any reordering of the results gives the same exit code and prints the same errors, each as often |
| Cli.Pool | cmd/verify/verify.go:47-90 | no workers: exit 0 with nothing printed; a panic exactly when there are workers, the buffer exceeds the runtime's allocation limit of 2^48 bytes and some record's file opens; otherwise status 0 exactly when every record matches, nothing is printed exactly then, and the printed errors are the records' non-empty classifications (listed in manifest order; any arrival order prints the same errors by `Cli.ArrivalOrderIrrelevant`) |
| Cli.Run | cmd/verify/verify.go:21-91 | no operand gives the usage exit; a bad polynomial is fatal before anything else, then a worker count of 0 panics, then an unreadable manifest is fatal; a normal exit means the manifest was read; the status is 0, 1 or 2 |
| Cli.RunSucceedsIffAllMatch | cmd/verify/verify.go:35-90 | with positive workers and a valid polynomial, an unreadable manifest is fatal with its error; otherwise the run panics exactly when the buffer exceeds 2^48 bytes and some record's file opens, and if it does not, the status is 0 exactly when every record matches its file |
| Cli.NegativeWorkersSkipVerification | cmd/verify/verify.go:51-90 | with a negative worker count and a manifest that was read, the run exits 0 with nothing printed, whatever the files hold |
| Cli.OneRecordRead | sfv/sfv.go:124-162 | a manifest of one written record line reads back as that one record, under the manifest's directory |
| Cli.NegativeWorkersPassMissingFile | cmd/verify/verify.go:51-90 | a manifest with one record whose file is missing, run with `-j` negative: the record fails its check, yet the status is 0 |
| Cli.RunCorrected | cmd/verify/verify.go:21-91 | with advertised names accepted and a non-positive worker count fatal, status 0 implies the manifest was read and every record matched |
| Cli.RunCorrectedAgrees | cmd/verify/verify.go:21-91 | for positive workers and any name other than "koopman" the corrected command behaves exactly as the command as written |

## Left out

- The CRC-32 table arithmetic of `hash/crc32`: the byte step is a parameter (`CrcStep`); only the fold, the zero start and `Sum32` returning the state are modelled.
- `os.Open`, `os.Stat`, `ioutil.ReadDir` and `bufio`: files, the listing and the scanner's output are inputs. The scanner's line splitting, CR stripping and 64 KiB token limit are not modelled; the scanner error is an input.
- `path.Join`, `path.Dir` and `filepath.Join` with their cleaning rules: they are function parameters, and `filepath.Join` is taken to be `path.Join` (as on Unix).
- `filepath.Ext` is modelled as the suffix from the last dot of the last `/`-separated element only.
- Goroutines, channels, the wait group and the atomic buffer-size variable (sfv/sfv.go:33-41): the pool is a map over the records and the coordinator a fold over the results in some arrival order.
- Progress bars, `fmt` and `log` output text, and flag parsing: the command receives its operands and flag values already parsed, and an ill-formed flag value (which the flag package rejects) is not modelled.
- `verify/main.go`, a second command over a library that is not part of this model.
- Verification.Verify: every read returns a full buffer until the data runs out; a reader that returns short reads is not modelled, which does not change the checksum (`Crc.ChunkedEqualsWhole`) but can change which call a read fault falls on.
- Verification.Verify: a read that returns data together with an error is modelled as that read failing; the data is dropped either way.
- Verification.Verify: a buffer over 2^48 bytes makes `make` panic right after the file opens (sfv/sfv.go:54); this member returns a verdict instead, and the panic is modelled one level up, in `Cli.Pool`.
- Cli.Pool: running out of memory for a buffer of at most 2^48 bytes is not modelled; only the panic of `make` for a length beyond the Go runtime's `maxAlloc` (2^48 on 64-bit Linux; other platforms differ) is, and it is reported as a crash of the whole run, without the lines other workers may have printed first.
- Text.TrimSpace: lines are taken to be valid UTF-8 decoded to characters; a byte that is not valid UTF-8 (which Go keeps and treats as not white space) is not modelled.
- Cli.BufSize: `int` is taken to be 64 bits wide.
- Error messages are modelled by their kind and data, not their text.

## Findings

| source | as written | input that shows it | evidently intended | confidence | as-written member | corrected member |
|---|---|---|---|---|---|---|
| cmd/verify/verify.go:99 | the parser accepts "koop" while the help text at line 17 offers "koopman" | `verify -poly koopman m.sfv` ends with "unsupported polynomial koopman" | "koopman" selects the Koopman polynomial | high, not executed | Cli.KoopmanAdvertisedButRejected | Cli.ParsePolyAsAdvertised |
| cmd/verify/verify.go:51 | a negative `-j` starts no workers, nothing is checked and the exit code stays 0 | `verify -j -1 m.sfv` where `m.sfv` names one file that does not exist exits 0 | a worker count below 1 is rejected as a configuration error | high, not executed | Cli.NegativeWorkersPassMissingFile | Cli.RunCorrected |

=== FILE: base.dfy ===
/** Shared vocabulary: Go's fixed-width integer ranges, Option/Result, and a
    first-index search used by every "scan in order, stop at the first hit" loop. */
module Base {

  /** Go's `byte`. */
  type byte = x: int | 0 <= x < 0x100

  /** Go's `uint32`. */
  type uint32 = x: int | 0 <= x < 0x1_0000_0000

  const MaxUint32: int := 0xFFFF_FFFF

  datatype Option<+T> = None | Some(value: T)

  /** A Go `(value, error)` pair in which exactly one side is meaningful. */
  datatype Result<+T, +E> = Ok(value: T) | Err(error: E)

  function Min(a: int, b: int): (r: int)
  {
    if a <= b then a else b
  }

  /** Index of the first element of `s` satisfying `p`, or `|s|` when none does.
      Every element before the returned index fails `p`. */
  function IndexWhere<T>(s: seq<T>, p: T -> bool): (k: nat)
    ensures k <= |s|
    ensures forall i :: 0 <= i < k ==> !p(s[i])
    ensures k < |s| ==> p(s[k])
    decreases |s|
  {
    if |s| == 0 then 0
    else if p(s[0]) then 0
    else 1 + IndexWhere(s[1..], p)
  }
}

=== FILE: cli.dfy ===
/** The `verify` command: choosing the polynomial, sizing the per-worker read
    buffer, turning each record's check into an error or a success, and
    folding the results into the exit status. The worker pool is modelled as
    a map over the records followed by a fold that ignores arrival order. */
module Cli {
  import opened Base
  import opened Errors
  import opened Crc
  import opened Manifest
  import opened Verification

  /** The reversed generator polynomials `hash/crc32` names. */
  const IEEE: uint32 := 0xEDB8_8320
  const Castagnoli: uint32 := 0x82F6_3B78
  const Koopman: uint32 := 0xEB31_D82E

  /** The names the help text of `-poly` offers. */
  const AdvertisedNames: seq<string> := ["crc32c", "ieee", "koopman"]

  /** `parsePoly`: three names are recognised; anything else is fatal. */
  function ParsePoly(name: string): (r: Result<uint32, Error>)
    ensures r.Ok? <==> name == "crc32c" || name == "ieee" || name == "koop"
    ensures r.Err? ==> r.error == UnsupportedPolynomial(name)
    ensures r == Ok(Castagnoli) <==> name == "crc32c"
    ensures r == Ok(IEEE) <==> name == "ieee"
    ensures r == Ok(Koopman) <==> name == "koop"
  {
    if name == "crc32c" then Ok(Castagnoli)
    else if name == "ieee" then Ok(IEEE)
    else if name == "koop" then Ok(Koopman)
    else Err(UnsupportedPolynomial(name))
  }

  /** The help text offers "koopman", which the parser turns away. */
  lemma KoopmanAdvertisedButRejected()
    ensures "koopman" in AdvertisedNames
    ensures ParsePoly("koopman") == Err(UnsupportedPolynomial("koopman"))
  {
  }

  /** The polynomial parser as the help text describes it: every advertised
      name is accepted, "koop" keeps working, and nothing else changes. */
  function ParsePolyAsAdvertised(name: string): (r: Result<uint32, Error>)
    ensures name in AdvertisedNames ==> r.Ok?
    ensures name == "koopman" ==> r == Ok(Koopman)
    ensures name != "koopman" ==> r == ParsePoly(name)
  {
    if name == "koopman" then Ok(Koopman) else ParsePoly(name)
  }

  const MinInt64: int := -0x8000_0000_0000_0000
  const MaxInt64: int := 0x7FFF_FFFF_FFFF_FFFF
  const TwoTo64: int := 0x1_0000_0000_0000_0000

  predicate IsInt64(x: int)
  {
    MinInt64 <= x <= MaxInt64
  }

  /** Two's-complement wrap-around of a 64-bit `int`. */
  function WrapInt64(x: int): (r: int)
    ensures IsInt64(r)
    ensures (x - r) % TwoTo64 == 0
    ensures IsInt64(x) ==> r == x
  {
    (x - MinInt64) % TwoTo64 + MinInt64
  }

  function Abs(x: int): (r: nat)
  {
    if x < 0 then -x else x
  }

  /** Go's integer quotient, rounded toward zero (before any wrap-around):
      its magnitude is the quotient of the magnitudes and its sign is the
      product of the operands' signs. */
  function Quo(a: int, b: int): (q: int)
    requires b != 0
    ensures Abs(q) == Abs(a) / Abs(b)
    ensures q == 0 || (q > 0 <==> (a > 0) == (b > 0))
  {
    var m := Abs(a) / Abs(b);
    assert m >= 0 by {
      DivNonNegative(Abs(a), Abs(b));
    }
    if (a < 0) == (b < 0) then m else -m
  }

  lemma DivNonNegative(x: nat, y: nat)
    requires y > 0
    ensures x / y >= 0
  {
  }

  /** For a budget that fits and a positive divisor the conversions in
      `BufSize` change nothing: the result is the even share, rounded down. */
  lemma EvenSplit(a: int, w: int)
    requires 0 <= a <= MaxInt64 && w > 0
    ensures WrapInt64(Quo(a, w)) % TwoTo64 == a / w
    ensures (a / w) * w <= a < (a / w + 1) * w
  {
    var q := a / w;
    assert a == q * w + a % w;
    assert q * w >= q by {
      MulAtLeast(q, w);
    }
    assert Quo(a, w) == q;
  }

  /** For a negative budget and a positive divisor the quotient rounds toward
      zero, and its reinterpretation as a `uint64` is 2^64 less the share of
      the budget's magnitude, or 0 when that share is 0. */
  lemma NegativeShare(m: int, w: int)
    requires MinInt64 <= m < 0 && w > 0
    ensures WrapInt64(Quo(m, w)) % TwoTo64 == (if -m < w then 0 else TwoTo64 - (-m) / w)
  {
    var a := -m;
    var d := a / w;
    assert d <= a && (d == 0 <==> a < w) by {
      ShareBounds(a, w);
    }
    assert Quo(m, w) == -d;
    assert WrapInt64(-d) == -d;
  }

  /** A share of a budget is at most the budget, and 0 exactly when the
      budget is smaller than the number of shares. */
  lemma ShareBounds(a: nat, w: nat)
    requires w > 0
    ensures a / w <= a
    ensures a / w == 0 <==> a < w
  {
    var d := a / w;
    assert a == d * w + a % w;
    MulAtLeast(d, w);
  }

  lemma MulAtLeast(q: nat, w: nat)
    requires w > 0
    ensures q * w >= q
  {
  }

  /** The share of a 64-bit budget `m` for each of `w` workers, read as a
      `uint64`, stated with division of non-negative numbers only: the even
      share rounded down for a budget that is not negative, and for a
      negative one 2^64 less the share of its magnitude, or 0 when that share
      is 0. */
  function Uint64Share(m: int, w: int): (r: int)
    requires w > 0
  {
    if m >= 0 then m / w else if -m < w then 0 else TwoTo64 - (-m) / w
  }

  /** The ways the program dies in a Go panic. */
  datatype Panic = DivideByZero | MakeSliceLenOutOfRange

  /** `SetBufSize(*memory * 1024 / *parallelism)`: the product wraps as a
      64-bit `int`, the quotient rounds toward zero (and wraps for the one
      overflowing case), and the result is reinterpreted as a `uint64`. A
      worker count of 0 divides by zero. For a positive worker count, a
      wrapped budget that is not negative is divided evenly and rounded down,
      and a negative one (`-mem -1`) gives 2^64 less its share, a buffer far
      beyond `MaxAlloc`, unless that share is 0. */
  function BufSize(mem: int, workers: int): (r: Result<nat, Panic>)
    requires IsInt64(mem) && IsInt64(workers)
    ensures r.Err? <==> workers == 0
    ensures r.Err? ==> r.error == DivideByZero
    ensures r.Ok? ==> r.value < TwoTo64
    ensures workers > 0 && 0 <= mem * 1024 <= MaxInt64 ==>
      r.Ok? && r.value * workers <= mem * 1024 < (r.value + 1) * workers
    ensures workers > 0 ==> r == Ok(Uint64Share(WrapInt64(mem * 1024), workers))
  {
    if workers == 0 then Err(DivideByZero)
    else
      var q := WrapInt64(Quo(WrapInt64(mem * 1024), workers)) % TwoTo64;
      assert workers > 0 && 0 <= mem * 1024 <= MaxInt64 ==> q * workers <= mem * 1024 < (q + 1) * workers by {
        if workers > 0 && 0 <= mem * 1024 <= MaxInt64 {
          EvenSplit(mem * 1024, workers);
        }
      }
      var m := WrapInt64(mem * 1024);
      assert workers > 0 ==> q == Uint64Share(m, workers) by {
        if workers > 0 && m >= 0 {
          EvenSplit(m, workers);
        } else if workers > 0 {
          NegativeShare(m, workers);
        }
      }
      Ok(q)
  }

  /** More workers than bytes in the budget leaves each worker a buffer with
      no room, so every file checks as empty. */
  lemma BufSizeZeroWhenOversubscribed(mem: int, workers: int)
    requires IsInt64(mem) && IsInt64(workers)
    requires 0 <= mem * 1024 < workers
    ensures BufSize(mem, workers) == Ok(0)
  {
    var q := BufSize(mem, workers).value;
    if q > 0 {
      MulAtLeast(workers, q);
    }
  }

  /** The worker's classification of one record's check: nothing on a match,
      a corruption error carrying the expected checksum, the computed one and
      the name on a mismatch, and the per-record verifier's own error otherwise. */
  function Classify(c: Checksum, v: VerifyResult): (r: Option<Error>)
    ensures r.None? <==> Matches(v)
    ensures v.err.Some? ==> r == v.err
    ensures v.err.None? && !v.ok ==> r == Some(Corruption(c.crc32, v.computed, c.filename))
  {
    if !v.ok && v.err.None? then Some(Corruption(c.crc32, v.computed, c.filename)) else v.err
  }

  /** Against the file itself: a file that cannot be opened is reported with
      the open error, never as a mismatch; a record passes exactly when its
      file was read to the end and its checksum (of nothing when the buffer
      has size 0) is the one recorded. */
  lemma ClassifyOutcome(c: Checksum, step: CrcStep, poly: uint32, f: File, bufSize: nat)
    ensures var r := Classify(c, Outcome(c, step, poly, f, bufSize));
      && (!f.Readable? ==> r == Some(f.err))
      && (r.None? <==> f.Readable? && !FaultReached(f.data, f.fault, bufSize)
                       && CrcOf(step, poly, if bufSize == 0 then [] else f.data) == c.crc32)
      && (f.Readable? && !FaultReached(f.data, f.fault, bufSize) && r.Some? ==>
            r == Some(Corruption(c.crc32, CrcOf(step, poly, if bufSize == 0 then [] else f.data), c.filename)))
  {
  }

  /** The check each worker runs: `Checksum.Verify` on the file the record
      names, with the run's polynomial and buffer size. */
  function DiskCheck(step: CrcStep, poly: uint32, disk: Disk, bufSize: nat): (check: Checksum -> VerifyResult)
  {
    (c: Checksum) => Outcome(c, step, poly, disk(c.path), bufSize)
  }

  /** The results the workers send, listed in manifest order: exactly one per
      record, its record's classification, so empty exactly for the records
      that matched. */
  function Results(cs: seq<Checksum>, check: Checksum -> VerifyResult): (rs: seq<Option<Error>>)
    ensures |rs| == |cs|
    ensures forall i :: 0 <= i < |cs| ==> rs[i] == Classify(cs[i], check(cs[i]))
    ensures forall i :: 0 <= i < |cs| ==> (rs[i].None? <==> Matches(check(cs[i])))
  {
    seq(|cs|, (i: int) requires 0 <= i < |cs| => Classify(cs[i], check(cs[i])))
  }

  /** The coordinator's loop over the arriving results: the exit code becomes
      1 at the first error and stays there. */
  function Drain(code: int, rs: seq<Option<Error>>): (r: int)
    requires code == 0 || code == 1
    ensures r == 0 || r == 1
    ensures r == 1 <==> code == 1 || exists i :: 0 <= i < |rs| && rs[i].Some?
    decreases |rs|
  {
    if |rs| == 0 then code
    else Drain(if rs[0].Some? then 1 else code, rs[1..])
  }

  /** The exit code: 0 exactly when no result is an error. */
  function ExitCode(rs: seq<Option<Error>>): (r: int)
    ensures r == 0 || r == 1
    ensures r == 0 <==> forall i :: 0 <= i < |rs| ==> rs[i].None?
  {
    Drain(0, rs)
  }

  /** The errors printed, in arrival order. */
  function Printed(rs: seq<Option<Error>>): (r: seq<Error>)
    ensures |r| <= |rs|
    ensures |r| == 0 <==> forall i :: 0 <= i < |rs| ==> rs[i].None?
    decreases |rs|
  {
    if |rs| == 0 then []
    else (if rs[0].Some? then [rs[0].value] else []) + Printed(rs[1..])
  }

  /** Each error is printed as many times as it arrives. */
  lemma {:induction false} PrintedCount(rs: seq<Option<Error>>, e: Error)
    ensures multiset(Printed(rs))[e] == multiset(rs)[Some(e)]
    decreases |rs|
  {
    if |rs| > 0 {
      PrintedCount(rs[1..], e);
      assert rs == [rs[0]] + rs[1..];
      assert multiset(rs) == multiset([rs[0]]) + multiset(rs[1..]);
    }
  }

  /** A reordering of results that are all successes holds only successes. */
  lemma AllNoneTransfers(a: seq<Option<Error>>, b: seq<Option<Error>>)
    requires multiset(a) == multiset(b)
    requires forall i :: 0 <= i < |a| ==> a[i].None?
    ensures forall j :: 0 <= j < |b| ==> b[j].None?
  {
    forall j | 0 <= j < |b| ensures b[j].None? {
      assert b[j] in multiset(a);
    }
  }

  /** Workers finish in any order, and the order does not matter: any
      arrival order of the same results gives the same exit code and prints
      the same errors, each as often. */
  lemma ArrivalOrderIrrelevant(a: seq<Option<Error>>, b: seq<Option<Error>>)
    requires multiset(a) == multiset(b)
    ensures ExitCode(a) == ExitCode(b)
    ensures multiset(Printed(a)) == multiset(Printed(b))
  {
    if forall i :: 0 <= i < |a| ==> a[i].None? {
      AllNoneTransfers(a, b);
    }
    if forall j :: 0 <= j < |b| ==> b[j].None? {
      AllNoneTransfers(b, a);
    }
    forall e: Error ensures multiset(Printed(a))[e] == multiset(Printed(b))[e] {
      PrintedCount(a, e);
      PrintedCount(b, e);
    }
  }

  /** How the process ends: the usage text (status 1), `log.Fatal` (status
      1), a panic (status 2), or `os.Exit` with the folded code after printing
      the errors. */
  datatype Termination =
    | Usage
    | Fatal(err: Error)
    | Crash(reason: Panic)
    | Exit(code: int, printed: seq<Error>)

  function Status(t: Termination): (code: int)
  {
    match t
    case Usage => 1
    case Fatal(_) => 1
    case Crash(_) => 2
    case Exit(code, _) => code
  }

  /** The command line: the operands after the flags (the first is the
      manifest path, any others are ignored), `-poly`, `-mem` (KiB of buffers
      in all) and `-j` (number of workers). */
  datatype Args = Args(operands: seq<string>, poly: string, mem: int, workers: int)

  function SfvPath(args: Args): (path: string)
  {
    if |args.operands| > 0 then args.operands[0] else ""
  }

  predicate ArgsInRange(args: Args)
  {
    IsInt64(args.mem) && IsInt64(args.workers)
  }

  function OpensAny(cs: seq<Checksum>, disk: Disk): (r: bool)
  {
    exists i | 0 <= i < |cs| :: disk(cs[i].path).Readable?
  }

  /** The largest allocation the Go runtime accepts on 64-bit Linux
      (`maxAlloc`, 2^48 bytes): `make` of a longer byte slice panics with
      "len out of range", as does any length beyond the largest `int`. */
  const MaxAlloc: int := 0x1_0000_0000_0000

  /** The worker pool over the records. With no workers nobody takes a record
      off the queue and nothing is reported. A buffer size beyond `MaxAlloc`
      makes the first worker that opens a file panic when it allocates its
      buffer. Otherwise every record is checked once and the coordinator
      folds the results. */
  function Pool(cs: seq<Checksum>, workers: int, bufSize: nat, step: CrcStep, poly: uint32, disk: Disk): (t: Termination)
    ensures t.Exit? || t.Crash?
    ensures workers <= 0 ==> t == Exit(0, [])
    ensures t.Crash? ==> t.reason == MakeSliceLenOutOfRange
    ensures t.Crash? <==> workers > 0 && bufSize > MaxAlloc && OpensAny(cs, disk)
    ensures workers > 0 && t.Exit? ==>
      (t.code == 0 <==> forall i :: 0 <= i < |cs| ==> Matches(DiskCheck(step, poly, disk, bufSize)(cs[i])))
    ensures t.Exit? ==> |t.printed| <= |cs| && (t.code == 0 <==> t.printed == [])
    ensures workers > 0 && t.Exit? ==> t.printed == Printed(Results(cs, DiskCheck(step, poly, disk, bufSize)))
  {
    if workers <= 0 then Exit(0, [])
    else if bufSize > MaxAlloc && OpensAny(cs, disk) then Crash(MakeSliceLenOutOfRange)
    else
      var rs := Results(cs, DiskCheck(step, poly, disk, bufSize));
      Exit(ExitCode(rs), Printed(rs))
  }

  /** `main` of the `verify` command: the manifest operand, then the
      polynomial, then the buffer size, then the manifest, then the pool. A
      missing operand, a bad polynomial name, a worker count of 0 (a division
      by zero) or an unreadable manifest ends the run before any record is
      checked; a buffer beyond `MaxAlloc` crashes it during the checks. */
  function Run(args: Args, open: string -> Result<Scan, Error>, paths: Paths, disk: Disk, step: CrcStep): (t: Termination)
    requires ArgsInRange(args)
    ensures t == Usage <==> |args.operands| == 0
    ensures |args.operands| > 0 && ParsePoly(args.poly).Err? ==> t == Fatal(UnsupportedPolynomial(args.poly))
    ensures |args.operands| > 0 && ParsePoly(args.poly).Ok? && args.workers == 0 ==> t == Crash(DivideByZero)
    ensures |args.operands| > 0 && ParsePoly(args.poly).Ok? && args.workers != 0 && open(SfvPath(args)).Err? ==>
      t == Fatal(open(SfvPath(args)).error)
    ensures t.Exit? ==> Read(SfvPath(args), open(SfvPath(args)), paths).Ok?
    ensures Status(t) == 0 || Status(t) == 1 || Status(t) == 2
  {
    if |args.operands| == 0 then Usage
    else
      match ParsePoly(args.poly)
      case Err(e) => Fatal(e)
      case Ok(poly) =>
        match BufSize(args.mem, args.workers)
        case Err(p) => Crash(p)
        case Ok(bufSize) =>
          match Read(SfvPath(args), open(SfvPath(args)), paths)
          case Err(e) => Fatal(e)
          case Ok(sfv) => Pool(sfv.checksums, args.workers, bufSize, step, poly, disk)
  }

  /** With a positive worker count and a valid polynomial name, a manifest
      that cannot be read is fatal; one that was read makes the run succeed
      exactly when every record's file was read in full and has the recorded
      checksum, unless it dies allocating a buffer beyond `MaxAlloc`, which
      happens exactly when the buffer is that large and some record's file
      opens. */
  lemma RunSucceedsIffAllMatch(args: Args, open: string -> Result<Scan, Error>, paths: Paths, disk: Disk, step: CrcStep)
    requires ArgsInRange(args) && |args.operands| > 0 && args.workers > 0
    requires ParsePoly(args.poly).Ok?
    ensures var t := Run(args, open, paths, disk, step);
      var r := Read(SfvPath(args), open(SfvPath(args)), paths);
      var check := DiskCheck(step, ParsePoly(args.poly).value, disk, BufSize(args.mem, args.workers).value);
      && (r.Err? ==> t == Fatal(r.error))
      && (r.Ok? ==> t.Crash? || (t.Exit? && (Status(t) == 0 <==>
                      forall i :: 0 <= i < |r.value.checksums| ==> Matches(check(r.value.checksums[i])))))
      && (r.Ok? ==> (t.Crash? <==> BufSize(args.mem, args.workers).value > MaxAlloc && OpensAny(r.value.checksums, disk)))
  {
  }

  /** `-mem -1 -j 1`: the budget of -1024 bytes, read as a `uint64`, is a
      buffer of 2^64 - 1024 bytes, beyond `MaxAlloc`, so the first worker that
      opens a file panics. */
  lemma NegativeBudgetHugeBuffer()
    ensures BufSize(-1, 1) == Ok(TwoTo64 - 1024)
    ensures TwoTo64 - 1024 > MaxAlloc
  {
  }

  /** With a negative worker count and a valid polynomial name, a manifest
      that was read makes the run report success without checking a single
      record, whatever is on disk. */
  lemma NegativeWorkersSkipVerification(args: Args, open: string -> Result<Scan, Error>, paths: Paths, disk: Disk, step: CrcStep)
    requires ArgsInRange(args) && |args.operands| > 0 && args.workers < 0
    requires ParsePoly(args.poly).Ok?
    ensures var r := Read(SfvPath(args), open(SfvPath(args)), paths);
      && (r.Err? ==> Run(args, open, paths, disk, step) == Fatal(r.error))
      && (r.Ok? ==> Run(args, open, paths, disk, step) == Exit(0, []))
  {
  }

  /** A manifest of one written record line reads back as that one record. */
  lemma OneRecordRead(sfvPath: string, fn: string, v: uint32, open: string -> Result<Scan, Error>, paths: Paths)
    requires PlainName(fn)
    requires open(sfvPath) == Ok(Scan([FormatLine(fn, v)], None))
    ensures Read(sfvPath, open(sfvPath), paths) == Ok(Sfv([Checksum(fn, paths.join(paths.dir(sfvPath), fn), v)], sfvPath))
  {
    var entries := [(fn, v)];
    assert entries[1..] == [];
    assert FormatManifest(entries) == [FormatLine(fn, v)];
    assert Resolve(paths.dir(sfvPath), entries, paths.join) == [Checksum(fn, paths.join(paths.dir(sfvPath), fn), v)];
    ParseFormattedManifest(paths.dir(sfvPath), entries, paths.join);
  }

  /** An instance of it: `-j -1` on a manifest holding one well-formed record
      whose file does not exist exits with status 0, although checking that
      record fails. */
  lemma NegativeWorkersPassMissingFile(sfvPath: string, fn: string, v: uint32, mem: int, workers: int,
                                       open: string -> Result<Scan, Error>, paths: Paths, disk: Disk, step: CrcStep, bufSize: nat)
    requires PlainName(fn) && IsInt64(mem) && MinInt64 <= workers < 0
    requires open(sfvPath) == Ok(Scan([FormatLine(fn, v)], None))
    requires disk(paths.join(paths.dir(sfvPath), fn)).Missing?
    ensures var c := Checksum(fn, paths.join(paths.dir(sfvPath), fn), v);
      && Read(sfvPath, open(sfvPath), paths) == Ok(Sfv([c], sfvPath))
      && !Matches(DiskCheck(step, Castagnoli, disk, bufSize)(c))
      && Status(Run(Args([sfvPath], "crc32c", mem, workers), open, paths, disk, step)) == 0
  {
    var c := Checksum(fn, paths.join(paths.dir(sfvPath), fn), v);
    var args := Args([sfvPath], "crc32c", mem, workers);
    OneRecordRead(sfvPath, fn, v, open, paths);
    assert SfvPath(args) == sfvPath && ParsePoly(args.poly) == Ok(Castagnoli);
    NegativeWorkersSkipVerification(args, open, paths, disk, step);
    assert Run(args, open, paths, disk, step) == Exit(0, []);
    assert Outcome(c, step, Castagnoli, disk(c.path), bufSize).err.Some?;
  }

  /** The command as its help text suggests, with a worker count below 1
      rejected: every advertised polynomial name is accepted and a
      non-positive worker count is a fatal configuration error, so a zero
      status means every record of the manifest was checked and matched. */
  function RunCorrected(args: Args, open: string -> Result<Scan, Error>, paths: Paths, disk: Disk, step: CrcStep): (t: Termination)
    requires ArgsInRange(args)
    ensures |args.operands| > 0 && ParsePolyAsAdvertised(args.poly).Ok? && args.workers <= 0 ==>
      t == Fatal(InvalidWorkers(args.workers))
    ensures Status(t) == 0 ==>
      && ParsePolyAsAdvertised(args.poly).Ok? && args.workers > 0
      && Read(SfvPath(args), open(SfvPath(args)), paths).Ok?
      && var check := DiskCheck(step, ParsePolyAsAdvertised(args.poly).value, disk, BufSize(args.mem, args.workers).value);
         forall c :: c in Read(SfvPath(args), open(SfvPath(args)), paths).value.checksums ==> Matches(check(c))
  {
    if |args.operands| == 0 then Usage
    else
      match ParsePolyAsAdvertised(args.poly)
      case Err(e) => Fatal(e)
      case Ok(poly) =>
        if args.workers <= 0 then Fatal(InvalidWorkers(args.workers))
        else
          match BufSize(args.mem, args.workers)
          case Err(p) => Crash(p)
          case Ok(bufSize) =>
            match Read(SfvPath(args), open(SfvPath(args)), paths)
            case Err(e) => Fatal(e)
            case Ok(sfv) => Pool(sfv.checksums, args.workers, bufSize, step, poly, disk)
  }

  /** Where the command already behaves as intended the corrected one agrees
      with it: a positive worker count and any name but "koopman". */
  lemma RunCorrectedAgrees(args: Args, open: string -> Result<Scan, Error>, paths: Paths, disk: Disk, step: CrcStep)
    requires ArgsInRange(args) && args.workers > 0 && args.poly != "koopman"
    ensures RunCorrected(args, open, paths, disk, step) == Run(args, open, paths, disk, step)
  {
  }
}

=== FILE: crc.dfy ===
/** The CRC-32 accumulator of `hash/crc32`, with the table arithmetic left
    abstract: a `CrcStep` takes the polynomial, the running checksum and one
    byte. `crc32.New` starts the running checksum at 0, `Write` folds the step
    over its bytes, and `Sum32` returns the running checksum as it is. */
module Crc {
  import opened Base

  type CrcStep = (uint32, uint32, byte) -> uint32

  /** `crc32.Update`: fold the step over `p`, first byte first. Writing no
      bytes leaves the checksum as it is. */
  function Update(step: CrcStep, poly: uint32, crc: uint32, p: seq<byte>): (r: uint32)
    ensures |p| == 0 ==> r == crc
    decreases |p|
  {
    if |p| == 0 then crc else Update(step, poly, step(poly, crc, p[0]), p[1..])
  }

  /** The checksum of a whole byte sequence, from a fresh accumulator: 0 for
      no bytes, since `Sum32` of a fresh `crc32.New` is 0. */
  function CrcOf(step: CrcStep, poly: uint32, p: seq<byte>): (r: uint32)
    ensures |p| == 0 ==> r == 0
  {
    Update(step, poly, 0, p)
  }

  /** Writing `a` and then `b` leaves the accumulator where writing `a + b` would. */
  lemma {:induction false} UpdateAppend(step: CrcStep, poly: uint32, crc: uint32, a: seq<byte>, b: seq<byte>)
    ensures Update(step, poly, crc, a + b) == Update(step, poly, Update(step, poly, crc, a), b)
    decreases |a|
  {
    if |a| > 0 {
      assert (a + b)[1..] == a[1..] + b;
      UpdateAppend(step, poly, step(poly, crc, a[0]), a[1..], b);
    } else {
      assert a + b == b;
    }
  }

  /** The last byte written is the last one folded in, so the checksum of
      `p` is one step past the checksum of `p` without its last byte. */
  lemma UpdateLast(step: CrcStep, poly: uint32, crc: uint32, p: seq<byte>)
    requires |p| > 0
    ensures Update(step, poly, crc, p) == step(poly, Update(step, poly, crc, p[..|p| - 1]), p[|p| - 1])
  {
    assert p == p[..|p| - 1] + [p[|p| - 1]];
    UpdateAppend(step, poly, crc, p[..|p| - 1], [p[|p| - 1]]);
  }

  /** Feeding `p` in consecutive chunks of `size` bytes (the last one shorter). */
  function UpdateInChunks(step: CrcStep, poly: uint32, crc: uint32, p: seq<byte>, size: nat): (r: uint32)
    requires size > 0
    decreases |p|
  {
    if |p| <= size then Update(step, poly, crc, p)
    else UpdateInChunks(step, poly, Update(step, poly, crc, p[..size]), p[size..], size)
  }

  /** The chunk size does not change the checksum: any positive size gives
      the checksum of the whole sequence. */
  lemma {:induction false} ChunkedEqualsWhole(step: CrcStep, poly: uint32, crc: uint32, p: seq<byte>, size: nat)
    requires size > 0
    ensures UpdateInChunks(step, poly, crc, p, size) == Update(step, poly, crc, p)
    decreases |p|
  {
    if |p| > size {
      ChunkedEqualsWhole(step, poly, Update(step, poly, crc, p[..size]), p[size..], size);
      UpdateAppend(step, poly, crc, p[..size], p[size..]);
      assert p[..size] + p[size..] == p;
    }
  }
}

=== FILE: errors.dfy ===
/** The error values the verifier produces or passes through. */
module Errors {
  import opened Base

  /** The two reasons `strconv.ParseUint` gives up. */
  datatype NumCause = ErrSyntax | ErrRange

  datatype Error =
    /** An error reported by the operating system (open, stat, read, directory
        listing) or by the line scanner; its text is opaque here. */
    | IoError(detail: string)
    /** `*strconv.NumError` for the checksum token `num`. */
    | NumError(num: string, cause: NumCause)
    /** "could not parse checksum": the manifest line has no space. */
    | MalformedLine(line: string)
    /** "no checksums found in <path>" from the whole-manifest check. */
    | NoChecksums(sfvPath: string)
    /** "no sfv found in <dir>" from the directory search. */
    | NoSfvFound(dir: string)
    /** "corruption: expected <x> but computed <y> for <filename>". */
    | Corruption(expected: uint32, computed: uint32, filename: string)
    /** "unsupported polynomial <name>". */
    | UnsupportedPolynomial(name: string)
    /** Only the corrected command line produces this: a non-positive worker count. */
    | InvalidWorkers(workers: int)
}

=== FILE: hex.dfy ===
/** Base-16 numbers as the manifest writes them: `strconv.ParseUint(s, 16, 32)`
    for reading a checksum token, and the `%x` verb for writing one. */
module Hex {
  import opened Base
  import opened Errors

  /** The characters `ParseUint` accepts in base 16 (either case). */
  predicate IsHexDigit(c: char)
  {
    ('0' <= c <= '9') || ('a' <= c <= 'f') || ('A' <= c <= 'F')
  }

  predicate AllHex(s: string)
  {
    forall i :: 0 <= i < |s| ==> IsHexDigit(s[i])
  }

  function DigitValue(c: char): (d: nat)
    requires IsHexDigit(c)
    ensures d < 16
  {
    if '0' <= c <= '9' then c as int - '0' as int
    else if 'a' <= c <= 'f' then c as int - 'a' as int + 10
    else c as int - 'A' as int + 10
  }

  /** The positional value of a digit string, most significant digit first.
      This is the reference meaning of a token, independent of how it is parsed. */
  function HexValue(s: string): (v: nat)
    requires AllHex(s)
    decreases |s|
  {
    if |s| == 0 then 0 else HexValue(s[..|s| - 1]) * 16 + DigitValue(s[|s| - 1])
  }

  /** A digit string never gets smaller when it is extended. */
  lemma {:induction false} HexValuePrefixMonotone(s: string, k: nat, m: nat)
    requires k <= m <= |s|
    requires AllHex(s[..m])
    ensures AllHex(s[..k])
    ensures HexValue(s[..k]) <= HexValue(s[..m])
    decreases m
  {
    assert forall i :: 0 <= i < k ==> s[..k][i] == s[..m][i];
    if k < m {
      assert s[..m][..m - 1] == s[..m - 1];
      assert forall i :: 0 <= i < m - 1 ==> s[..m - 1][i] == s[..m][i];
      HexValuePrefixMonotone(s, k, m - 1);
    }
  }

  /** Some prefix made only of digits already exceeds 32 bits. */
  ghost predicate Overflows(s: string)
  {
    exists k :: 0 < k <= |s| && AllHex(s[..k]) && HexValue(s[..k]) > MaxUint32
  }

  /** The digit loop of `ParseUint` from position `i`, with `n` the value of
      the digits consumed so far: the first non-digit is a syntax error, the
      first digit that takes the value past 32 bits is a range error. */
  function Accumulate(s: string, i: nat, n: uint32): (r: Result<uint32, Error>)
    requires i <= |s|
    requires AllHex(s[..i]) && n == HexValue(s[..i])
    ensures r.Ok? <==> AllHex(s) && HexValue(s) <= MaxUint32
    ensures r.Ok? ==> AllHex(s) && r.value == HexValue(s)
    ensures r.Err? ==> r.error == NumError(s, if Overflows(s) then ErrRange else ErrSyntax)
    decreases |s| - i
  {
    if i == |s| then
      assert s[..i] == s;
      assert !Overflows(s) by {
        forall k | 0 < k <= |s| ensures !(AllHex(s[..k]) && HexValue(s[..k]) > MaxUint32) {
          HexValuePrefixMonotone(s, k, |s|);
        }
      }
      Ok(n)
    else if !IsHexDigit(s[i]) then
      assert !AllHex(s);
      assert !Overflows(s) by {
        forall k | 0 < k <= |s| ensures !(AllHex(s[..k]) && HexValue(s[..k]) > MaxUint32) {
          if k <= i {
            HexValuePrefixMonotone(s, k, i);
          } else {
            assert s[..k][i] == s[i];
          }
        }
      }
      Err(NumError(s, ErrSyntax))
    else
      assert s[..i + 1][..i] == s[..i];
      assert AllHex(s[..i + 1]) by {
        assert forall j :: 0 <= j < i ==> s[..i + 1][j] == s[..i][j];
      }
      var n1 := n * 16 + DigitValue(s[i]);
      assert n1 == HexValue(s[..i + 1]);
      if n1 > MaxUint32 then
        assert Overflows(s) by {
          assert 0 < i + 1 <= |s| && AllHex(s[..i + 1]) && HexValue(s[..i + 1]) > MaxUint32;
        }
        assert !(AllHex(s) && HexValue(s) <= MaxUint32) by {
          if AllHex(s) {
            assert s[..|s|] == s;
            HexValuePrefixMonotone(s, i + 1, |s|);
          }
        }
        Err(NumError(s, ErrRange))
      else
        Accumulate(s, i + 1, n1)
  }

  /** `strconv.ParseUint(s, 16, 32)`: succeeds exactly on a non-empty string of
      hex digits whose value fits in 32 bits, and then yields that value. A
      failure is a range error when some all-digit prefix already overflows and
      a syntax error otherwise (the empty string, a sign, a "0x" prefix, an
      underscore or any other non-digit). */
  function ParseUint32Hex(s: string): (r: Result<uint32, Error>)
    ensures r.Ok? <==> |s| > 0 && AllHex(s) && HexValue(s) <= MaxUint32
    ensures r.Ok? ==> AllHex(s) && r.value == HexValue(s)
    ensures r.Err? ==> r.error == NumError(s, if Overflows(s) then ErrRange else ErrSyntax)
  {
    if |s| == 0 then
      assert !Overflows(s);
      Err(NumError(s, ErrSyntax))
    else
      assert s[..0] == [];
      Accumulate(s, 0, 0)
  }

  /** The lower-case digit for a value below 16. */
  function HexChar(d: nat): (c: char)
    requires d < 16
    ensures IsHexDigit(c) && DigitValue(c) == d
    ensures !('A' <= c <= 'F')
  {
    if d < 10 then (d + '0' as int) as char else (d - 10 + 'a' as int) as char
  }

  /** The `%x` verb: lower-case digits, no leading zeros, "0" for zero. */
  function FormatHex(v: nat): (r: string)
    ensures |r| > 0 && AllHex(r)
    ensures HexValue(r) == v
    ensures |r| > 1 ==> r[0] != '0'
    ensures forall i :: 0 <= i < |r| ==> !('A' <= r[i] <= 'F')
    decreases v
  {
    if v < 16 then [HexChar(v)]
    else
      var head := FormatHex(v / 16);
      var r := head + [HexChar(v % 16)];
      assert r[..|r| - 1] == head;
      r
  }

  /** Writing a 32-bit value with `%x` and reading it back with `ParseUint`
      gives the value back. */
  lemma FormatHexRoundTrip(v: uint32)
    ensures ParseUint32Hex(FormatHex(v)) == Ok(v)
  {
  }
}

=== FILE: manifest.dfy ===
/** Reading an SFV manifest: splitting record lines, parsing the whole file,
    resolving record paths against the manifest's directory, and locating a
    manifest in a directory listing. */
module Manifest {
  import opened Base
  import opened Errors
  import opened Text
  import opened Hex

  /** One record line: the name as written, the path resolved against the
      manifest's directory, and the expected CRC-32. */
  datatype Checksum = Checksum(filename: string, path: string, crc32: uint32)

  /** A manifest that was read: its records in file order and its own path. */
  datatype Sfv = Sfv(checksums: seq<Checksum>, path: string)

  /** `path.Join` and `path.Dir`, left uninterpreted. The directory search
      joins with `filepath.Join`, which is the same function on a system that
      separates path elements with '/'. */
  datatype Paths = Paths(join: (string, string) -> string, dir: string -> string)

  /** What the line scanner delivered: the lines, terminators stripped, that it
      read before stopping, and the error other than end of input that stopped
      it, if any. */
  datatype Scan = Scan(lines: seq<string>, err: Option<Error>)

  predicate IsSeparator(c: char)
  {
    c == ' '
  }

  /** `strings.SplitN(line, " ", 2)`: cut at the first ASCII space, or report
      that there is none. Tabs and other white space do not separate. */
  function SplitAtSpace(line: string): (r: Option<(string, string)>)
    ensures r.None? <==> ' ' !in line
    ensures r.Some? ==> line == r.value.0 + " " + r.value.1 && ' ' !in r.value.0
  {
    var i := IndexWhere(line, IsSeparator);
    if i == |line| then None
    else
      assert line == line[..i] + [line[i]] + line[i + 1..];
      Some((line[..i], line[i + 1..]))
  }

  /** `parseChecksum`: the filename is the trimmed text before the first space,
      the checksum the trimmed text after it read as a 32-bit hex number. */
  function ParseChecksum(dir: string, line: string, join: (string, string) -> string): (r: Result<Checksum, Error>)
    ensures r == Err(MalformedLine(line)) <==> ' ' !in line
    ensures r.Err? && ' ' in line ==> r.error.NumError?
    ensures r.Ok? ==> r.value.path == join(dir, r.value.filename)
    ensures r.Ok? ==> ' ' !in r.value.filename
  {
    match SplitAtSpace(line)
    case None => Err(MalformedLine(line))
    case Some((head, rest)) =>
      var filename := TrimSpace(head);
      TrimSpaceDrawsFrom(head, ' ');
      match ParseUint32Hex(TrimSpace(rest))
      case Err(e) => Err(e)
      case Ok(v) => Ok(Checksum(filename, join(dir, filename), v))
  }

  /** The split is at the FIRST space, whatever follows: a line `head + " " +
      rest` with no space in `head` is a record exactly when the trimmed `rest`
      is a hex number of at most 32 bits, and the record holds the trimmed
      `head` and that number. */
  lemma {:induction false} SplitsAtFirstSpace(dir: string, head: string, rest: string, join: (string, string) -> string)
    requires ' ' !in head
    ensures var r := ParseChecksum(dir, head + " " + rest, join);
      var tok := TrimSpace(rest);
      && (r.Ok? <==> |tok| > 0 && AllHex(tok) && HexValue(tok) <= MaxUint32)
      && (r.Ok? ==> AllHex(tok) && r.value == Checksum(TrimSpace(head), join(dir, TrimSpace(head)), HexValue(tok)))
      && (r.Err? ==> r.error == ParseUint32Hex(tok).error)
  {
    var line := head + " " + rest;
    var split := SplitAtSpace(line);
    assert line[|head|] == ' ';
    var a := split.value.0;
    if |a| != |head| {
      assert false;
    }
    assert a == line[..|head|] == head;
    assert split.value.1 == line[|head| + 1..] == rest;
  }

  /** A line whose text after the first space still holds a space once
      trimmed is rejected: `my file.txt 1234ABCD` is not the record of
      `my file.txt`, because the checksum token is `file.txt 1234ABCD`. */
  lemma SpaceAfterSplitFails(dir: string, head: string, rest: string, join: (string, string) -> string)
    requires ' ' !in head
    ensures ' ' in TrimSpace(rest) ==> ParseChecksum(dir, head + " " + rest, join).Err?
  {
    var tok := TrimSpace(rest);
    if ' ' in tok {
      assert !AllHex(tok) by {
        var i :| 0 <= i < |tok| && tok[i] == ' ';
        assert !IsHexDigit(tok[i]);
      }
      SplitsAtFirstSpace(dir, head, rest, join);
    }
  }

  /** A trimmed line contributes nothing when it is blank or a ';' comment. */
  predicate IsSkipped(t: string)
  {
    |t| == 0 || t[0] == ';'
  }

  /** A scanned line is passed over exactly when it is all white space or its
      first character other than white space is ';'. */
  lemma SkippedLine(line: string)
    ensures IsSkipped(TrimSpace(line)) <==>
      || (forall k :: 0 <= k < |line| ==> IsSpace(line[k]))
      || (exists i :: 0 <= i < |line| && line[i] == ';' && forall k :: 0 <= k < i ==> IsSpace(line[k]))
  {
    var t := TrimSpace(line);
    var a, b :| 0 <= a <= b <= |line| && t == line[a..b]
      && (forall k :: 0 <= k < a ==> IsSpace(line[k]))
      && (forall k :: b <= k < |line| ==> IsSpace(line[k]));
    if |t| > 0 {
      assert !IsSpace(t[0]);
      assert line[a] == t[0];
    }
  }

  /** One record in front of the rest, unless either has already failed; the
      record's own failure comes first. */
  function Prepend(head: Result<Checksum, Error>, rest: Result<seq<Checksum>, Error>): (r: Result<seq<Checksum>, Error>)
  {
    match head
    case Err(e) => Err(e)
    case Ok(c) =>
      match rest
      case Err(e) => Err(e)
      case Ok(cs) => Ok([c] + cs)
  }

  /** The loop of `parseChecksums` over the scanned lines. Each line is
      trimmed; blank and comment lines are passed over; every other line must
      parse, and the first one that does not ends the whole parse with its
      error and no records. */
  function ParseLines(dir: string, lines: seq<string>, join: (string, string) -> string): (r: Result<seq<Checksum>, Error>)
    ensures r.Ok? ==> |r.value| <= |lines|
    ensures r.Ok? ==> forall c :: c in r.value ==> c.path == join(dir, c.filename)
    decreases |lines|
  {
    if |lines| == 0 then Ok([])
    else
      var t := TrimSpace(lines[0]);
      if IsSkipped(t) then ParseLines(dir, lines[1..], join)
      else Prepend(ParseChecksum(dir, t, join), ParseLines(dir, lines[1..], join))
  }

  /** The trimmed lines that are records rather than blanks or comments, in
      file order. */
  function Kept(lines: seq<string>): (r: seq<string>)
    ensures |r| <= |lines|
    decreases |lines|
  {
    if |lines| == 0 then []
    else
      var t := TrimSpace(lines[0]);
      (if IsSkipped(t) then [] else [t]) + Kept(lines[1..])
  }

  /** The record parser for a manifest in `dir`. */
  function Parser(dir: string, join: (string, string) -> string): (parse: string -> Result<Checksum, Error>)
  {
    (t: string) => ParseChecksum(dir, t, join)
  }

  /** Parsing record lines with nothing to skip, each with `parse`. */
  function ParseKept(ks: seq<string>, parse: string -> Result<Checksum, Error>): (r: Result<seq<Checksum>, Error>)
    decreases |ks|
  {
    if |ks| == 0 then Ok([])
    else Prepend(parse(ks[0]), ParseKept(ks[1..], parse))
  }

  /** Blank and comment lines do not take part: parsing the file is parsing
      its kept lines. */
  lemma {:induction false} ParseLinesIsParseKept(dir: string, lines: seq<string>, join: (string, string) -> string)
    ensures ParseLines(dir, lines, join) == ParseKept(Kept(lines), Parser(dir, join))
    decreases |lines|
  {
    if |lines| > 0 {
      ParseLinesIsParseKept(dir, lines[1..], join);
      var t := TrimSpace(lines[0]);
      var tail := Kept(lines[1..]);
      if !IsSkipped(t) {
        var ks := [t] + tail;
        assert Kept(lines) == ks;
        assert ks[0] == t && ks[1..] == tail;
        assert ParseLines(dir, lines, join) == Prepend(ParseChecksum(dir, t, join), ParseLines(dir, lines[1..], join));
        assert ParseKept(ks, Parser(dir, join)) == Prepend(ParseChecksum(dir, t, join), ParseKept(tail, Parser(dir, join)));
      } else {
        assert Kept(lines) == [] + tail == tail;
        assert ParseLines(dir, lines, join) == ParseLines(dir, lines[1..], join);
      }
    }
  }

  /** The parse of kept lines succeeds exactly when each of them parses. */
  lemma {:induction false} ParseKeptSucceeds(ks: seq<string>, parse: string -> Result<Checksum, Error>)
    ensures ParseKept(ks, parse).Ok? <==> forall k :: 0 <= k < |ks| ==> parse(ks[k]).Ok?
    decreases |ks|
  {
    if |ks| > 0 {
      var tail := ks[1..];
      ParseKeptSucceeds(tail, parse);
      var h := parse(ks[0]);
      var rt := ParseKept(tail, parse);
      assert ParseKept(ks, parse) == Prepend(h, rt);
      if h.Ok? && rt.Ok? {
        forall k | 0 < k < |ks| ensures parse(ks[k]).Ok? {
          assert ks[k] == tail[k - 1];
        }
      } else if h.Ok? {
        var k :| 0 <= k < |tail| && !parse(tail[k]).Ok?;
        assert ks[k + 1] == tail[k];
      }
    }
  }

  /** A successful parse of kept lines holds their records one for one, in
      order. */
  lemma {:induction false} ParseKeptRecords(ks: seq<string>, parse: string -> Result<Checksum, Error>)
    requires ParseKept(ks, parse).Ok?
    ensures var cs := ParseKept(ks, parse).value;
      |cs| == |ks| && forall k :: 0 <= k < |ks| ==> parse(ks[k]) == Ok(cs[k])
    decreases |ks|
  {
    if |ks| > 0 {
      var tail := ks[1..];
      var h := parse(ks[0]);
      var rt := ParseKept(tail, parse);
      assert ParseKept(ks, parse) == Prepend(h, rt);
      ParseKeptRecords(tail, parse);
      var cs := [h.value] + rt.value;
      forall k | 0 <= k < |ks| ensures parse(ks[k]) == Ok(cs[k]) {
        if k > 0 {
          assert ks[k] == tail[k - 1];
          assert cs[k] == rt.value[k - 1];
        }
      }
    }
  }

  /** A failed parse of kept lines carries the error of the first kept line
      that does not parse; every line before it parsed. */
  lemma {:induction false} ParseKeptFirstError(ks: seq<string>, parse: string -> Result<Checksum, Error>)
    requires ParseKept(ks, parse).Err?
    ensures exists k :: && 0 <= k < |ks|
                        && parse(ks[k]) == Err(ParseKept(ks, parse).error)
                        && (forall j :: 0 <= j < k ==> parse(ks[j]).Ok?)
    decreases |ks|
  {
    var e := ParseKept(ks, parse).error;
    if parse(ks[0]).Err? {
      assert parse(ks[0]) == Err(e);
    } else {
      ParseKeptFirstError(ks[1..], parse);
      var k :| 0 <= k < |ks[1..]| && parse(ks[1..][k]) == Err(e)
        && forall j :: 0 <= j < k ==> parse(ks[1..][j]).Ok?;
      assert ks[k + 1] == ks[1..][k];
      forall j | 0 <= j < k + 1 ensures parse(ks[j]).Ok? {
        if j > 0 {
          assert ks[j] == ks[1..][j - 1];
        }
      }
    }
  }

  lemma ParseLinesSucceeds(dir: string, lines: seq<string>, join: (string, string) -> string)
    ensures var ks := Kept(lines);
      ParseLines(dir, lines, join).Ok? <==> forall k :: 0 <= k < |ks| ==> ParseChecksum(dir, ks[k], join).Ok?
  {
    ParseLinesIsParseKept(dir, lines, join);
    ParseKeptSucceeds(Kept(lines), Parser(dir, join));
  }

  lemma ParseLinesRecords(dir: string, lines: seq<string>, join: (string, string) -> string)
    ensures var r := ParseLines(dir, lines, join); var ks := Kept(lines);
      r.Ok? ==> |r.value| == |ks| && forall k :: 0 <= k < |ks| ==> ParseChecksum(dir, ks[k], join) == Ok(r.value[k])
  {
    ParseLinesIsParseKept(dir, lines, join);
    if ParseLines(dir, lines, join).Ok? {
      ParseKeptRecords(Kept(lines), Parser(dir, join));
    }
  }

  lemma ParseLinesFirstError(dir: string, lines: seq<string>, join: (string, string) -> string)
    requires ParseLines(dir, lines, join).Err?
    ensures var e := ParseLines(dir, lines, join).error; var ks := Kept(lines);
      exists k :: 0 <= k < |ks| && ParseChecksum(dir, ks[k], join) == Err(e)
        && forall j :: 0 <= j < k ==> ParseChecksum(dir, ks[j], join).Ok?
  {
    ParseLinesIsParseKept(dir, lines, join);
    ParseKeptFirstError(Kept(lines), Parser(dir, join));
  }

  /** What the parse of a whole file means: it succeeds exactly when every
      kept line parses, and then holds one record per kept line, in file
      order; otherwise its error is that of the first kept line that fails. */
  lemma ParseLinesMeaning(dir: string, lines: seq<string>, join: (string, string) -> string)
    ensures var r := ParseLines(dir, lines, join); var ks := Kept(lines);
      && (r.Ok? <==> forall k :: 0 <= k < |ks| ==> ParseChecksum(dir, ks[k], join).Ok?)
      && (r.Ok? ==> |r.value| == |ks| && forall k :: 0 <= k < |ks| ==> ParseChecksum(dir, ks[k], join) == Ok(r.value[k]))
      && (r.Err? ==> exists k :: 0 <= k < |ks| && ParseChecksum(dir, ks[k], join) == Err(r.error)
                       && forall j :: 0 <= j < k ==> ParseChecksum(dir, ks[j], join).Ok?)
  {
    ParseLinesSucceeds(dir, lines, join);
    ParseLinesRecords(dir, lines, join);
    if ParseLines(dir, lines, join).Err? {
      ParseLinesFirstError(dir, lines, join);
    }
  }

  /** `parseChecksums`: the line errors come first; if every line is fine,
      an error that stopped the scanner fails the parse; otherwise the records. */
  function ParseChecksums(dir: string, scan: Scan, join: (string, string) -> string): (r: Result<seq<Checksum>, Error>)
    ensures scan.err.Some? ==> r.Err?
    ensures ParseLines(dir, scan.lines, join).Err? ==> r == ParseLines(dir, scan.lines, join)
    ensures ParseLines(dir, scan.lines, join).Ok? && scan.err.Some? ==> r == Err(scan.err.value)
    ensures scan.err.None? ==> r == ParseLines(dir, scan.lines, join)
    ensures r.Ok? ==> |r.value| <= |scan.lines|
    ensures r.Ok? ==> forall c :: c in r.value ==> c.path == join(dir, c.filename)
  {
    match ParseLines(dir, scan.lines, join)
    case Err(e) => Err(e)
    case Ok(cs) => if scan.err.Some? then Err(scan.err.value) else Ok(cs)
  }

  /** A manifest of nothing but blank and comment lines parses to no records. */
  lemma {:induction false} OnlyCommentsParseEmpty(dir: string, lines: seq<string>, join: (string, string) -> string)
    requires forall i :: 0 <= i < |lines| ==> IsSkipped(TrimSpace(lines[i]))
    ensures ParseChecksums(dir, Scan(lines, None), join) == Ok([])
    decreases |lines|
  {
    if |lines| > 0 {
      assert IsSkipped(TrimSpace(lines[0]));
      OnlyCommentsParseEmpty(dir, lines[1..], join);
    }
  }

  /** `Read`: the records are resolved against the manifest's directory and
      the manifest remembers its own path. Failing to open it or to parse it
      gives no manifest at all. */
  function Read(sfvPath: string, src: Result<Scan, Error>, paths: Paths): (r: Result<Sfv, Error>)
    ensures src.Err? ==> r == Err(src.error)
    ensures src.Ok? && src.value.err.Some? ==> r.Err?
    ensures src.Ok? ==> match ParseChecksums(paths.dir(sfvPath), src.value, paths.join)
                        case Err(e) => r == Err(e)
                        case Ok(cs) => r == Ok(Sfv(cs, sfvPath))
    ensures r.Ok? ==> r.value.path == sfvPath
    ensures r.Ok? ==> forall c :: c in r.value.checksums ==> c.path == paths.join(paths.dir(sfvPath), c.filename)
  {
    match src
    case Err(e) => Err(e)
    case Ok(scan) =>
      match ParseChecksums(paths.dir(sfvPath), scan, paths.join)
      case Err(e) => Err(e)
      case Ok(cs) => Ok(Sfv(cs, sfvPath))
  }

  /** What reading an opened manifest means. With a clean scan it succeeds
      exactly when every kept line parses; it then holds one record per kept
      line, in file order, under the manifest's directory, and otherwise
      fails with the error of the first kept line that does not parse. When
      every line parses but the scanner stopped with an error, that error is
      the result. */
  lemma ReadMeaning(sfvPath: string, scan: Scan, paths: Paths)
    ensures var r := Read(sfvPath, Ok(scan), paths); var ks := Kept(scan.lines);
      var dir := paths.dir(sfvPath); var join := paths.join;
      && (scan.err.None? ==> (r.Ok? <==> forall k :: 0 <= k < |ks| ==> ParseChecksum(dir, ks[k], join).Ok?))
      && (r.Ok? ==> && r.value.path == sfvPath && |r.value.checksums| == |ks|
                    && forall k :: 0 <= k < |ks| ==> ParseChecksum(dir, ks[k], join) == Ok(r.value.checksums[k]))
      && (scan.err.None? && r.Err? ==>
            exists k :: 0 <= k < |ks| && ParseChecksum(dir, ks[k], join) == Err(r.error)
              && forall j :: 0 <= j < k ==> ParseChecksum(dir, ks[j], join).Ok?)
      && (scan.err.Some? && (forall k :: 0 <= k < |ks| ==> ParseChecksum(dir, ks[k], join).Ok?) ==>
            r == Err(scan.err.value))
  {
    ParseLinesMeaning(paths.dir(sfvPath), scan.lines, paths.join);
  }

  predicate IsSfvName(name: string)
  {
    Ext(name) == ".sfv"
  }

  /** `Find`: read the first entry of the listing whose extension is ".sfv".
      `ioutil.ReadDir` lists a directory sorted by name, so this is the
      ".sfv" name that sorts first; the model takes the listing in whatever
      order it is given, which covers that order. */
  function Find(dir: string, listing: Result<seq<string>, Error>, open: string -> Result<Scan, Error>, paths: Paths): (r: Result<Sfv, Error>)
    ensures listing.Err? ==> r == Err(listing.error)
    ensures (listing.Ok? && forall i :: 0 <= i < |listing.value| ==> !EndsWith(listing.value[i], ".sfv")) ==>
      r == Err(NoSfvFound(dir))
  {
    match listing
    case Err(e) => Err(e)
    case Ok(names) =>
      var k := IndexWhere(names, IsSfvName);
      if k == |names| then
        assert forall i :: 0 <= i < |names| ==> !IsSfvName(names[i]);
        Err(NoSfvFound(dir))
      else
        ExtIsSfv(names[k]);
        var p := paths.join(dir, names[k]);
        Read(p, open(p), paths)
  }

  /** The directory search picks the first name ending in ".sfv" (case
      matters: ".SFV" does not count), whatever comes after it. */
  lemma FindPicksFirst(dir: string, names: seq<string>, open: string -> Result<Scan, Error>, paths: Paths, k: nat)
    requires k < |names| && EndsWith(names[k], ".sfv")
    requires forall i :: 0 <= i < k ==> !EndsWith(names[i], ".sfv")
    ensures Find(dir, Ok(names), open, paths) == Read(paths.join(dir, names[k]), open(paths.join(dir, names[k])), paths)
  {
    forall i | 0 <= i <= k ensures IsSfvName(names[i]) <==> i == k {
      ExtIsSfv(names[i]);
    }
    assert IndexWhere(names, IsSfvName) == k;
  }

  /** A file name a manifest writer can emit on a record line: non-empty, no
      space, no white space at either end, and not starting a comment. */
  predicate PlainName(fn: string)
  {
    |fn| > 0 && ' ' !in fn && !IsSpace(fn[0]) && !IsSpace(fn[|fn| - 1]) && fn[0] != ';'
  }

  function FormatLine(fn: string, v: uint32): (line: string)
  {
    fn + " " + FormatHex(v)
  }

  /** Writing a record line and parsing it gives the record back. */
  lemma ParseFormattedLine(dir: string, fn: string, v: uint32, join: (string, string) -> string)
    requires PlainName(fn)
    ensures TrimSpace(FormatLine(fn, v)) == FormatLine(fn, v)
    ensures !IsSkipped(FormatLine(fn, v))
    ensures ParseChecksum(dir, FormatLine(fn, v), join) == Ok(Checksum(fn, join(dir, fn), v))
  {
    var hex := FormatHex(v);
    var line := fn + " " + hex;
    TrimSpaceKeeps(fn);
    TrimSpaceKeeps(hex);
    assert line[|line| - 1] == hex[|hex| - 1];
    TrimSpaceKeeps(line);
    SplitsAtFirstSpace(dir, fn, hex, join);
    FormatHexRoundTrip(v);
  }

  function FormatManifest(entries: seq<(string, uint32)>): (lines: seq<string>)
    decreases |entries|
  {
    if |entries| == 0 then [] else [FormatLine(entries[0].0, entries[0].1)] + FormatManifest(entries[1..])
  }

  function Resolve(dir: string, entries: seq<(string, uint32)>, join: (string, string) -> string): (cs: seq<Checksum>)
    decreases |entries|
  {
    if |entries| == 0 then []
    else [Checksum(entries[0].0, join(dir, entries[0].0), entries[0].1)] + Resolve(dir, entries[1..], join)
  }

  /** A record line at the front of the file is parsed ahead of the rest. */
  lemma ParseLinesCons(dir: string, line: string, lines: seq<string>, join: (string, string) -> string)
    requires TrimSpace(line) == line && !IsSkipped(line)
    ensures ParseLines(dir, [line] + lines, join) == Prepend(ParseChecksum(dir, line, join), ParseLines(dir, lines, join))
  {
    var ls := [line] + lines;
    assert ls[0] == line && ls[1..] == lines;
  }

  /** One step of the round trip: a written record line in front of a file
      that parses back adds its record in front. */
  lemma ParseFormattedStep(dir: string, entries: seq<(string, uint32)>, join: (string, string) -> string)
    requires |entries| > 0 && PlainName(entries[0].0)
    ensures ParseLines(dir, FormatManifest(entries[1..]), join) == Ok(Resolve(dir, entries[1..], join)) ==>
              ParseLines(dir, FormatManifest(entries), join) == Ok(Resolve(dir, entries, join))
  {
    var line := FormatLine(entries[0].0, entries[0].1);
    var c := Checksum(entries[0].0, join(dir, entries[0].0), entries[0].1);
    assert FormatManifest(entries) == [line] + FormatManifest(entries[1..]);
    assert Resolve(dir, entries, join) == [c] + Resolve(dir, entries[1..], join);
    assert ParseChecksum(dir, line, join) == Ok(c) && TrimSpace(line) == line && !IsSkipped(line) by {
      ParseFormattedLine(dir, entries[0].0, entries[0].1, join);
    }
    ParseLinesCons(dir, line, FormatManifest(entries[1..]), join);
  }

  lemma {:induction false} ParseFormattedLines(dir: string, entries: seq<(string, uint32)>, join: (string, string) -> string)
    requires forall i :: 0 <= i < |entries| ==> PlainName(entries[i].0)
    ensures ParseLines(dir, FormatManifest(entries), join) == Ok(Resolve(dir, entries, join))
    decreases |entries|
  {
    if |entries| > 0 {
      ParseFormattedLines(dir, entries[1..], join);
      ParseFormattedStep(dir, entries, join);
    }
  }

  /** A manifest written from plain names parses back to the same records, one
      per line, in order. */
  lemma ParseFormattedManifest(dir: string, entries: seq<(string, uint32)>, join: (string, string) -> string)
    requires forall i :: 0 <= i < |entries| ==> PlainName(entries[i].0)
    ensures ParseChecksums(dir, Scan(FormatManifest(entries), None), join) == Ok(Resolve(dir, entries, join))
  {
    ParseFormattedLines(dir, entries, join);
  }
}

=== FILE: text.dfy ===
/** The string helpers from Go's standard library the manifest code relies on:
    `strings.TrimSpace` and `filepath.Ext`. */
module Text {
  import opened Base

  /** `unicode.IsSpace`: on ASCII exactly tab, line feed, vertical tab, form
      feed, carriage return and space; beyond ASCII, U+0085, U+00A0 and the
      characters of Unicode's White_Space property. */
  predicate IsSpace(c: char): (r: bool)
    ensures c as int < 0x80 ==> (r <==> c in "\t\n\U{B}\U{C}\r ")
  {
    var n := c as int;
    || (0x09 <= n <= 0x0D) || n == 0x20 || n == 0x85 || n == 0xA0 || n == 0x1680
    || (0x2000 <= n <= 0x200A) || n == 0x2028 || n == 0x2029 || n == 0x202F
    || n == 0x205F || n == 0x3000
  }

  predicate IsNonSpace(c: char)
  {
    !IsSpace(c)
  }

  /** Start of the trailing white space: every character from the returned
      index on is white space, and the one just before it is not. */
  function TrailStart(s: string): (k: nat)
    ensures k <= |s|
    ensures forall i :: k <= i < |s| ==> IsSpace(s[i])
    ensures k > 0 ==> !IsSpace(s[k - 1])
    decreases |s|
  {
    if |s| > 0 && IsSpace(s[|s| - 1]) then TrailStart(s[..|s| - 1]) else |s|
  }

  /** `strings.TrimSpace`: the infix of `s` between its leading and trailing
      white space. It is empty exactly when `s` is all white space, and
      otherwise it starts and ends with a non-space character. */
  function TrimSpace(s: string): (r: string)
    ensures |r| <= |s|
    ensures |r| > 0 ==> !IsSpace(r[0]) && !IsSpace(r[|r| - 1])
    ensures |r| == 0 <==> forall i :: 0 <= i < |s| ==> IsSpace(s[i])
    ensures exists i, j :: && 0 <= i <= j <= |s| && r == s[i..j]
                           && (forall k :: 0 <= k < i ==> IsSpace(s[k]))
                           && (forall k :: j <= k < |s| ==> IsSpace(s[k]))
  {
    var lead := IndexWhere(s, IsNonSpace);
    if lead == |s| then
      assert s[|s|..|s|] == "";
      ""
    else
      s[lead..TrailStart(s)]
  }

  /** A string with no white space at either end is its own trimming. */
  lemma TrimSpaceKeeps(s: string)
    requires |s| == 0 || (!IsSpace(s[0]) && !IsSpace(s[|s| - 1]))
    ensures TrimSpace(s) == s
  {
  }

  /** Trimming only removes characters: everything left was in `s`. */
  lemma TrimSpaceDrawsFrom(s: string, c: char)
    ensures c in TrimSpace(s) ==> c in s
  {
    if c in TrimSpace(s) {
      var a, b :| 0 <= a <= b <= |s| && TrimSpace(s) == s[a..b];
      SliceDrawsFrom(s, a, b, c);
    }
  }

  /** Every character of a slice occurs in the whole. */
  lemma SliceDrawsFrom(s: string, a: nat, b: nat, c: char)
    requires a <= b <= |s| && c in s[a..b]
    ensures c in s
  {
    var i :| 0 <= i < b - a && s[a..b][i] == c;
    assert s[a + i] == c;
  }

  /** Trimming twice is trimming once. */
  lemma TrimSpaceIdempotent(s: string)
    ensures TrimSpace(TrimSpace(s)) == TrimSpace(s)
  {
    TrimSpaceKeeps(TrimSpace(s));
  }

  /** `filepath.Ext` scanning backwards from index `i`, when nothing from `i`
      on is a '.' or a '/': stops with "" at a '/' or at the front, and at a
      '.' returns everything from that dot on. */
  function ExtScan(p: string, i: nat): (r: string)
    requires i <= |p|
    requires forall k :: i <= k < |p| ==> p[k] != '.' && p[k] != '/'
    ensures |r| <= |p| && r == p[|p| - |r|..]
    ensures r != [] ==> r[0] == '.' && '.' !in r[1..] && '/' !in r
    ensures r == [] ==> forall k :: 0 <= k < i && p[k] == '.' ==> '/' in p[k..i]
    decreases i
  {
    if i == 0 then ""
    else if p[i - 1] == '/' then
      assert forall k :: 0 <= k < i ==> p[k..i][i - 1 - k] == '/';
      ""
    else if p[i - 1] == '.' then
      var r := p[i - 1..];
      assert forall k :: 1 <= k < |r| ==> r[k] == p[i - 1 + k];
      r
    else
      var r := ExtScan(p, i - 1);
      assert r == [] ==> forall k :: 0 <= k < i && p[k] == '.' ==> '/' in p[k..i] by {
        if r == [] {
          forall k | 0 <= k < i && p[k] == '.' ensures '/' in p[k..i] {
            assert '/' in p[k..i - 1];
            var m :| 0 <= m < |p[k..i - 1]| && p[k..i - 1][m] == '/';
            assert p[k..i][m] == '/';
          }
        }
      }
      r
  }

  /** `filepath.Ext`: the suffix from the last dot of the path, provided no
      '/' follows that dot; "" when the last path element has no dot. */
  function Ext(p: string): (r: string)
    ensures |r| <= |p| && r == p[|p| - |r|..]
    ensures r != [] ==> r[0] == '.' && '.' !in r[1..] && '/' !in r
    ensures r == [] ==> forall k :: 0 <= k < |p| && p[k] == '.' ==> '/' in p[k..]
  {
    ExtScan(p, |p|)
  }

  predicate EndsWith(s: string, suffix: string)
  {
    |suffix| <= |s| && s[|s| - |suffix|..] == suffix
  }

  /** A name ending in ".sfv" has that extension: its last dot is the one
      of ".sfv", and no '/' follows it. */
  lemma SfvSuffixExt(name: string)
    requires EndsWith(name, ".sfv")
    ensures Ext(name) == ".sfv"
  {
    var n := |name|;
    var tail := name[n - 4..];
    assert tail == ".sfv";
    var r := Ext(name);
    assert r != [] by {
      assert name[n - 4] == '.' && '/' !in name[n - 4..];
    }
    assert |r| == 4;
  }

  /** The extension test of the directory search, case-sensitive: `Ext` is
      ".sfv" exactly when the name ends in ".sfv". */
  lemma ExtIsSfv(name: string)
    ensures Ext(name) == ".sfv" <==> EndsWith(name, ".sfv")
  {
    if EndsWith(name, ".sfv") {
      SfvSuffixExt(name);
    }
  }
}

=== FILE: verification.dfy ===
/** Checking records against the files they name: one record by streaming
    its file through the CRC accumulator, a whole manifest by checking its
    records in order until one fails, and the existence check. */
module Verification {
  import opened Base
  import opened Errors
  import opened Crc
  import opened Manifest

  /** The `call`-th read of a file (counting from 0) fails with `err`, an
      error other than end of file. */
  datatype ReadFault = ReadFault(call: nat, err: Error)

  /** A file as `Checksum.Verify` sees it: `os.Stat` fails only on `Missing`, and
      `os.Open` fails on `Missing` and `Unopenable`. */
  datatype File =
    | Missing(err: Error)
    | Unopenable(err: Error)
    | Readable(data: seq<byte>, fault: Option<ReadFault>)

  /** The file system, by path. */
  type Disk = string -> File

  /** What `Checksum.Verify` returns: whether the file matched, the checksum
      computed, and the error that stopped it. */
  datatype VerifyResult = VerifyResult(ok: bool, computed: uint32, err: Option<Error>)

  predicate Matches(v: VerifyResult)
  {
    v.err.None? && v.ok
  }

  /** Reading `data` through a buffer of `bufSize` bytes, read call `k` is made
      exactly when every earlier call delivered data, that is when
      `k * bufSize < |data| + bufSize`; the call just past the data is the one
      that sees end of file. A zero-length buffer never reaches the file. */
  predicate FaultReached(data: seq<byte>, fault: Option<ReadFault>, bufSize: nat)
  {
    bufSize > 0 && fault.Some? && fault.value.call * bufSize < |data| + bufSize
  }

  /** The result of checking record `c` against file `f`, stated over the
      whole content at once. An open failure or a read failure is reported as
      an error, with no match and a zero checksum; otherwise the checksum of
      the content (of nothing, so 0, when the buffer has size 0) is compared
      with the record. */
  function Outcome(c: Checksum, step: CrcStep, poly: uint32, f: File, bufSize: nat): (v: VerifyResult)
    ensures v.err.Some? ==> !v.ok && v.computed == 0
    ensures !f.Readable? ==> v.err == Some(f.err)
    ensures f.Readable? && FaultReached(f.data, f.fault, bufSize) ==> v.err == Some(f.fault.value.err)
    ensures v.err.None? <==> f.Readable? && !FaultReached(f.data, f.fault, bufSize)
    ensures v.err.None? ==> v.ok == (v.computed == c.crc32)
    ensures v.err.None? && bufSize > 0 ==> v.computed == CrcOf(step, poly, f.data)
    ensures v.err.None? && bufSize == 0 ==> v.computed == 0
  {
    match f
    case Missing(e) => VerifyResult(false, 0, Some(e))
    case Unopenable(e) => VerifyResult(false, 0, Some(e))
    case Readable(data, fault) =>
      if FaultReached(data, fault, bufSize) then VerifyResult(false, 0, Some(fault.value.err))
      else
        var h := CrcOf(step, poly, if bufSize == 0 then [] else data);
        VerifyResult(h == c.crc32, h, None)
  }

  lemma MulMonotone(a: nat, b: nat, k: nat)
    requires a <= b
    ensures a * k <= b * k
  {
  }

  /** `Checksum.Verify`: open the file, then read it `bufSize` bytes at a time,
      feeding each chunk to the accumulator, until a read delivers nothing; a
      read error other than end of file abandons the record. */
  method Verify(c: Checksum, step: CrcStep, poly: uint32, f: File, bufSize: nat)
    returns (ok: bool, computed: uint32, err: Option<Error>)
    ensures VerifyResult(ok, computed, err) == Outcome(c, step, poly, f, bufSize)
  {
    if !f.Readable? {
      return false, 0, Some(f.err);
    }
    var data := f.data;
    var h: uint32 := 0;
    var i := 0;
    var call := 0;
    while true
      invariant 0 <= i <= |data|
      invariant h == Update(step, poly, 0, data[..i])
      invariant bufSize == 0 ==> i == 0
      invariant bufSize > 0 ==> i == Min(call * bufSize, |data|) && call * bufSize < |data| + bufSize
      invariant bufSize > 0 && f.fault.Some? ==> call <= f.fault.value.call
      decreases |data| - i
    {
      if bufSize > 0 && f.fault.Some? && f.fault.value.call == call {
        return false, 0, Some(f.fault.value.err);
      }
      var n := if bufSize == 0 then 0 else Min(bufSize, |data| - i);
      if n == 0 {
        break;
      }
      UpdateAppend(step, poly, 0, data[..i], data[i..i + n]);
      assert data[..i] + data[i..i + n] == data[..i + n];
      h := Update(step, poly, h, data[i..i + n]);
      assert (call + 1) * bufSize == call * bufSize + bufSize;
      i := i + n;
      call := call + 1;
    }
    if bufSize > 0 && f.fault.Some? {
      MulMonotone(call + 1, f.fault.value.call, bufSize);
      assert (call + 1) * bufSize == call * bufSize + bufSize;
    }
    assert data[..i] == (if bufSize == 0 then [] else data);
    ok, computed, err := h == c.crc32, h, None;
  }

  /** The whole-manifest result, as Go's `(bool, error)` pair. */
  datatype Verdict = Verdict(ok: bool, err: Option<Error>)

  function Fails(check: Checksum -> VerifyResult): (fails: Checksum -> bool)
  {
    (c: Checksum) => !Matches(check(c))
  }

  /** The loop of `SFV.Verify` over the records, in order: stop with the error
      of the first record that reports one, or with a plain "no" at the first
      mismatch. Its verdict is decided by the first record that does not
      match, and only by that record. */
  function VerifyFrom(cs: seq<Checksum>, check: Checksum -> VerifyResult): (r: Verdict)
    ensures var k := IndexWhere(cs, Fails(check));
      r == if k == |cs| then Verdict(true, None) else Verdict(false, check(cs[k]).err)
    decreases |cs|
  {
    if |cs| == 0 then Verdict(true, None)
    else
      var v := check(cs[0]);
      if v.err.Some? then Verdict(false, v.err)
      else if !v.ok then Verdict(false, None)
      else VerifyFrom(cs[1..], check)
  }

  /** `SFV.Verify`: a manifest with no records is an error; otherwise the
      verdict is yes with no error exactly when every record matched, the
      first record's error when a record could not be read, and a plain no
      when the first failure was a mismatch. */
  function VerifyAll(s: Sfv, check: Checksum -> VerifyResult): (r: Verdict)
    ensures |s.checksums| == 0 ==> r == Verdict(false, Some(NoChecksums(s.path)))
    ensures r.ok <==> |s.checksums| > 0 && forall i :: 0 <= i < |s.checksums| ==> Matches(check(s.checksums[i]))
    ensures r.ok ==> r.err.None?
    ensures |s.checksums| > 0 && r.err.Some? ==>
      exists k :: 0 <= k < |s.checksums| && check(s.checksums[k]).err == r.err
        && forall i :: 0 <= i < k ==> Matches(check(s.checksums[i]))
    ensures !r.ok && r.err.None? ==>
      exists k :: 0 <= k < |s.checksums| && check(s.checksums[k]).err.None? && !check(s.checksums[k]).ok
        && forall i :: 0 <= i < k ==> Matches(check(s.checksums[i]))
  {
    if |s.checksums| == 0 then Verdict(false, Some(NoChecksums(s.path)))
    else
      var r := VerifyFrom(s.checksums, check);
      var k := IndexWhere(s.checksums, Fails(check));
      assert forall i :: 0 <= i < k ==> Matches(check(s.checksums[i])) by {
        forall i | 0 <= i < k ensures Matches(check(s.checksums[i])) {
          assert !Fails(check)(s.checksums[i]);
        }
      }
      r
  }

  /** Records after the first failing one are never looked at: two checks
      that agree up to and including it give the same verdict. */
  lemma LaterRecordsIgnored(s: Sfv, check: Checksum -> VerifyResult, other: Checksum -> VerifyResult, k: nat)
    requires k < |s.checksums| && !Matches(check(s.checksums[k]))
    requires forall i :: 0 <= i <= k ==> other(s.checksums[i]) == check(s.checksums[i])
    ensures VerifyAll(s, check) == VerifyAll(s, other)
  {
    var cs := s.checksums;
    var a := IndexWhere(cs, Fails(check));
    var b := IndexWhere(cs, Fails(other));
    assert Fails(check)(cs[k]) && Fails(other)(cs[k]);
    assert a <= k && b <= k;
    assert a == b;
  }

  function NotFound(stat: string -> bool): (missing: Checksum -> bool)
  {
    (c: Checksum) => !stat(c.path)
  }

  /** `SFV.IsExist`: every record's file exists (`stat` is `Checksum.IsExist`
      on its path); true of a manifest with no records. */
  function AllExist(s: Sfv, stat: string -> bool): (r: bool)
    ensures r <==> forall i :: 0 <= i < |s.checksums| ==> stat(s.checksums[i].path)
  {
    var k := IndexWhere(s.checksums, NotFound(stat));
    assert forall i :: 0 <= i < k ==> stat(s.checksums[i].path) by {
      forall i | 0 <= i < k ensures stat(s.checksums[i].path) {
        assert !NotFound(stat)(s.checksums[i]);
      }
    }
    k == |s.checksums|
  }

  /** The existence check of the file system: `os.Stat` succeeds. A file
      that exists but cannot be opened still exists. */
  function Stat(disk: Disk): (stat: string -> bool)
    ensures forall p :: disk(p).Missing? ==> !stat(p)
    ensures forall p :: disk(p).Unopenable? ==> stat(p)
    ensures forall p :: disk(p).Readable? ==> stat(p)
  {
    p => !disk(p).Missing?
  }

  /** With a buffer of size 0 no byte of the file is read: whatever it holds,
      and whatever read would fail, the check computes 0 and passes exactly
      the records whose checksum is 0. */
  lemma ZeroBufferChecksNothing(c: Checksum, step: CrcStep, poly: uint32, data: seq<byte>, fault: Option<ReadFault>)
    ensures var v := Outcome(c, step, poly, Readable(data, fault), 0);
      && v.err.None? && v.computed == 0
      && (Matches(v) <==> c.crc32 == 0)
  {
  }

  /** Existence and checking agree one way only: a record whose file does not
      exist fails its check with an error, and a record checked without error
      names an existing file; an existing file may still fail to open. */
  lemma MissingFailsCheck(c: Checksum, step: CrcStep, poly: uint32, disk: Disk, bufSize: nat)
    ensures !Stat(disk)(c.path) ==> Outcome(c, step, poly, disk(c.path), bufSize).err.Some?
    ensures Outcome(c, step, poly, disk(c.path), bufSize).err.None? ==> Stat(disk)(c.path)
    ensures disk(c.path).Unopenable? ==> Stat(disk)(c.path) && Outcome(c, step, poly, disk(c.path), bufSize).err.Some?
  {
  }
}
